=== FILE: README.md ===
# Attendance tracker: a functional model in Dafny

This is a model of the browser attendance tracker of a small school, written in Dafny. In the tracker, an owner registers
teachers and students, and each user signs in with their role's shared PIN.
Teachers and students check in as present (`hadir`), on leave (`izin`) or sick
(`sakit`). Leave and sick check-ins need a reason. Every check-in asks for a
location fix and needs a camera photo before its record is written to the
realtime database. A failed location lookup does not stop a check-in, so a
record can carry an earlier position or none.

The page keeps its state in four globals: `currentUser`, `currentStream`,
`currentLocation` and `pendingAttendance`. Here they are one immutable
`Handlers.Session` record, extended with:

- the set of camera streams whose tracks are still running;
- what is on screen: the login form, the dashboard, and the reason and camera modals.

Each event handler is a pure function from an `App` (session, database and
registration form) to a `Reaction`. A reaction is the new `App` plus the alerts
raised and the views reloaded. Everything the page asks of the outside world is
an input of the transition:

- the geolocation outcome: unsupported, a fix, or an error or timeout;
- the camera outcome: granted with a new stream, or denied;
- whether a database write succeeded;
- the clock readings;
- the random draws.

Modules:

- `Text` (text.dfy): `trim`, `split(c)[0]`, `substr`, and decimal `toString` for n < 10^21, with JavaScript semantics.
- `Records` (records.dfy): roles, statuses, the stored user and attendance records, and the database as one list per role and path.
- `Credentials` (credentials.dfy): the PIN table, the PIN check and `generateId`.
- `Directory` (directory.dfy): registration validation, `generatePin` and the user record.
- `Attendance` (attendance.dfy): the record `saveAttendance` composes.
- `Views` (views.dfy): the present-today count, a teacher's day list, and the history on the student dashboard. That history reads the whole `attendance/students` list with no per-user filter, so every student sees the newest five check-ins of all students.
- `Handlers` (handlers.dfy): the handlers as transitions, and `Step`/`Run` over events.
- `Properties` (properties.dfy): facts about sequences of events.

Behaviour of the code worth knowing:

- The draft (`pendingAttendance`) is never cleared when a record is saved. Only `logout` clears it.
- A failed location lookup keeps the earlier `currentLocation`, so a later
  record can carry the position from an earlier attempt.
- `generatePin` draws from 100000 to 999999.
- A signed-in user's name is the role string itself, such as `"student"`.

## Model

| member | source | states |
|---|---|---|
| Text.Trim | deepseek_javascript_20251116_19766d.js:31 | the trimmed field is empty exactly when every character is white space, and it never starts or ends with white space |
| Text.TrimPadded | deepseek_javascript_20251116_19766d.js:31 | trimming text padded with white space on both sides gives back exactly that text |
| Text.TrimIdempotent | deepseek_javascript_20251116_19766d.js:100-102 | trimming an already trimmed field changes nothing |
| Text.Before | deepseek_javascript_20251116_19766d.js:506-507 | `split(c)[0]` is the longest prefix that does not contain the separator |
| Text.BeforeSeparator | deepseek_javascript_20251116_19766d.js:506 | whatever follows the first separator, `split(c)[0]` returns the text before it |
| Text.Substr | deepseek_javascript_20251116_19766d.js:546 | `substr(start, n)` returns at most n characters copied from position start, and none past the end |
| Text.DecimalString | deepseek_javascript_20251116_19766d.js:550 | `toString` of a natural number is a non-empty run of decimal digits with no leading zero (below 10^21) |
| Text.ParseDecimalString | deepseek_javascript_20251116_19766d.js:550 | reading back the decimal rendering of a number gives the number |
| Text.DecimalLength | deepseek_javascript_20251116_19766d.js:550 | a number with k decimal digits renders as exactly k characters |
| Records.PathsDistinct | deepseek_javascript_20251116_19766d.js:525 | different roles write to different `users/` and `attendance/` paths |
| Records.PushUser | deepseek_javascript_20251116_19766d.js:130-131 | a push appends the record to that role's user list and changes no other list |
| Records.PushAttendance | deepseek_javascript_20251116_19766d.js:525-526 | a push appends the record to that role's attendance list and changes no other list |
| Credentials.PinOf | deepseek_javascript_20251116_19766d.js:8-12 | the `PINS` table: each role's PIN is six decimal digits with no white space around it |
| Credentials.CheckPin | deepseek_javascript_20251116_19766d.js:31-38 | a blank field is refused as missing, and a field is accepted exactly when its trimmed value is the role's PIN |
| Credentials.OwnPinAccepted | deepseek_javascript_20251116_19766d.js:8-12 | each role's PIN from the table is accepted for that role, with any white space around it |
| Credentials.AcceptedForOneRole | deepseek_javascript_20251116_19766d.js:8-12 | a PIN accepted for one role is rejected as wrong for every other role |
| Credentials.GenerateId | deepseek_javascript_20251116_19766d.js:545-547 | a session id is `user_` followed by the rendering's characters from the third on, nine of them or as many as there are; a rendering of two characters or fewer gives `user_` alone |
| Credentials.GenerateIdSameIff | deepseek_javascript_20251116_19766d.js:545-547 | two renderings give the same session id exactly when their third to eleventh characters agree |
| Directory.GeneratePin | deepseek_javascript_20251116_19766d.js:549-551 | for any draw in [0, 1) the PIN is six decimal digits whose value is the floor of 100000 + draw × 900000, hence in [100000, 999999] |
| Directory.Validate | deepseek_javascript_20251116_19766d.js:104-117 | a blank name is reported first, then a student without a class, then a teacher without a subject; any other form passes |
| Directory.Register | deepseek_javascript_20251116_19766d.js:98-126 | an invalid form gives its first error. A valid one gives a record with the trimmed non-empty name, a class only for students, a subject only for teachers, the registration time, and the PIN `generatePin` gives for the draw: six digits valued in [100000, 999999] |
| Attendance.DateOfIso | deepseek_javascript_20251116_19766d.js:506 | for an ISO instant `day + "T" + rest`, the record's date is `day` |
| Attendance.BuildAttendance | deepseek_javascript_20251116_19766d.js:504-521 | check-out is empty. Role, status and reason come from the draft; name and id from the user; location and photo as given; the date is the record's own timestamp up to its first `T`, and the check-in time the local time up to its first space |
| Attendance.RecordDateIsDay | deepseek_javascript_20251116_19766d.js:504-520 | for an instant `day + "T" + rest`, the written record's date is `day` and its timestamp is the whole instant |
| Views.PresentCountConcat | deepseek_javascript_20251116_19766d.js:219-226 | counting present records over two lists gives the sum of the two counts |
| Views.PresentCountIsCardinality | deepseek_javascript_20251116_19766d.js:217-227 | the present count is the number of positions holding a record dated that day with status `hadir` |
| Views.CountPresentToday | deepseek_javascript_20251116_19766d.js:217-227 | the nested counting loop over all role groups computes the present count of all their records together |
| Views.LoadStats | deepseek_javascript_20251116_19766d.js:204-228 | the teacher and student counts are the list sizes, zero for a missing list; the present count covers the owners', students' and teachers' records |
| Views.StatsOfEmptyDb | deepseek_javascript_20251116_19766d.js:204-213 | with no `users` or `attendance` paths, both counts and the present count are zero |
| Views.PresentCountAfterPush | deepseek_javascript_20251116_19766d.js:217-227 | adding a record to any role's list raises the present count by one exactly when that record is present that day |
| Views.Reverse | deepseek_javascript_20251116_19766d.js:333 | the reversed list has the same length, and position i holds the element i places from the end |
| Views.LimitToLast | deepseek_javascript_20251116_19766d.js:318 | `limitToLast(n)` gives the last min(n, length) entries |
| Views.StudentHistory | deepseek_javascript_20251116_19766d.js:317-333 | from the whole student attendance list, not only the signed-in student's records, the history holds at most five records, the newest first, each position counting back from the end |
| Views.HistoryIsNewestFive | deepseek_javascript_20251116_19766d.js:318-333 | the history read backwards is exactly the last five records in list order |
| Views.HistoryLatestFirst | deepseek_javascript_20251116_19766d.js:318-333 | from a snapshot ordered by timestamp, the history is ordered newest first |
| Views.DayRecords | deepseek_javascript_20251116_19766d.js:252 | a record is in a teacher's day view exactly when it is in the list and carries that date |
| Views.DayRecordsAfterPush | deepseek_javascript_20251116_19766d.js:252 | a newly pushed record appears at the end of the day view exactly when it carries that day |
| Handlers.Login | deepseek_javascript_20251116_19766d.js:29-53 | the role's own trimmed PIN signs in as that role, named after it, with the id `generateId` makes from the draw, and opens its dashboard. Otherwise nothing changes and the alert says whether the PIN was missing or wrong. Camera, location and draft are untouched |
| Handlers.DashboardLoads | deepseek_javascript_20251116_19766d.js:56-74 | only the owner's dashboard loads the user lists and the counts, only the teacher's the profile and the day's check-ins, only the student's the profile and the history |
| Handlers.Logout | deepseek_javascript_20251116_19766d.js:631-651 | from any state: no user, no draft, no stream, the held stream stopped, modals closed, login form shown; the last location kept; nothing reloads |
| Handlers.Prepare | deepseek_javascript_20251116_19766d.js:409-478 | missing geolocation aborts with nothing changed. A geolocation error keeps the old location and continues. A denied camera aborts with only the location updated. A granted camera becomes the held, running stream and opens the camera modal, and nothing else on screen changes. Draft, user, database and form are untouched and no view reloads |
| Handlers.StartAttendance | deepseek_javascript_20251116_19766d.js:360-363 | the draft becomes the role and status with an empty reason, and then preparation's outcome follows: the location update, the held stream, the camera modal and the alerts. User, database and form are untouched |
| Handlers.ShowReasonForm | deepseek_javascript_20251116_19766d.js:365-388 | the draft becomes the role and status with an empty reason, the reason modal opens, and nothing else changes |
| Handlers.CloseReasonModal | deepseek_javascript_20251116_19766d.js:403-406 | cancelling the reason form closes it and keeps the draft; the database, the registration form and everything else stay as they were |
| Handlers.SubmitReason | deepseek_javascript_20251116_19766d.js:390-401 | a blank reason changes nothing and alerts. Otherwise the draft takes the trimmed reason, the modal closes, and preparation's outcome follows: location, held stream, camera modal and alerts. With no draft the handler throws and nothing changes. The form is never touched |
| Handlers.CloseCamera | deepseek_javascript_20251116_19766d.js:495-501 | afterwards no stream is held, the held one is stopped, the camera modal is closed, and nothing else changes |
| Handlers.CapturePhoto | deepseek_javascript_20251116_19766d.js:480-541 | with a draft and a user: the composed record is appended to the draft role's list only if the write succeeds. The camera is released and its modal closed, while the draft, user, location, the rest of the screen and the form stay as they were. Without a draft or user the handler throws and nothing changes, the camera included |
| Handlers.OpenTab | deepseek_javascript_20251116_19766d.js:77-87 | switching the owner's tabs changes nothing, and only the reports tab reloads the counts |
| Handlers.RegisterUser | deepseek_javascript_20251116_19766d.js:98-144 | an invalid form or a failed write leaves database and form unchanged and reloads nothing. Success appends the record to the role's list, clears the text fields and reloads lists and counts |
| Properties.DraftClearedOnlyByLogout | deepseek_javascript_20251116_19766d.js:631-633 | a pending draft is cleared by an event exactly when that event is logout |
| Properties.DraftChangedOnlyByCheckIn | deepseek_javascript_20251116_19766d.js:360-401 | only the three check-in entry points and logout change the draft |
| Properties.InitTidy | deepseek_javascript_20251116_19766d.js:2-5 | the freshly loaded page holds no stream and shows no camera modal |
| Properties.StepKeepsTidy | deepseek_javascript_20251116_19766d.js:495-499 | each event keeps the camera discipline unless it restarts preparation over an open camera. Under the discipline, only the held stream runs, a stream is held exactly while the camera modal is open, and the modal needs a draft |
| Properties.RunKeepsTidy | deepseek_javascript_20251116_19766d.js:631-638 | every run of events without such a restart keeps the camera discipline |
| Properties.ExitsReleaseCamera | deepseek_javascript_20251116_19766d.js:480-501 | under the discipline, closing the camera, logging out, and capturing with a user each leave no stream running |
| Properties.RestartLeaksStream | deepseek_javascript_20251116_19766d.js:463-473 | preparation started while a stream is held overwrites the handle, and the old stream keeps running after the camera closes |
| Properties.StaleLocationReused | deepseek_javascript_20251116_19766d.js:448-453 | after a successful fix, a later attempt whose lookup fails saves a record with the earlier position |
| Properties.RetryAfterCameraDenied | deepseek_javascript_20251116_19766d.js:409-421 | a denied camera writes nothing and keeps the draft; retrying with the camera allowed writes one `hadir` record with the photo and an empty check-out |
| Properties.PresentCheckInCounted | deepseek_javascript_20251116_19766d.js:217-227 | a successful `hadir` check-in raises the present count for its own day by exactly one |
| Properties.BlankReasonStopsCheckIn | deepseek_javascript_20251116_19766d.js:390-396 | a leave or sick request with a blank reason writes nothing, opens no camera and keeps the form and the empty-reason draft |
| Properties.ReportsTabShowsCurrentCounts | deepseek_javascript_20251116_19766d.js:84-86 | after any event, opening the reports tab reloads the counts of the database that event left, and changes nothing |
| Properties.RegistrationCounted | deepseek_javascript_20251116_19766d.js:132-136 | after a registered student, the next stats load counts one more student; the other counts do not change |
| Properties.RegisterStudent | deepseek_javascript_20251116_19766d.js:119-126 | a valid student form appends one student with the trimmed name and class, no subject, and the PIN `generatePin` gives for the draw, which is six digits |

## Left out

- Realtime database calls (`on`, `once`, `push`, `set`): the database is a value with one list per role. Each write's success or failure is an input. The SDK error message is not carried.
- Live subscriptions and DOM rendering of the lists: the model has the pure functions the renderers apply (`Views.DayRecords`, `Views.StudentHistory`, `Views.LoadStats`). HTML templating, status labels and icons are not modelled.
- The server-side sort of `orderByChild('timestamp')` is not modelled. `Views.StudentHistory` takes the whole student attendance list, in timestamp order, and applies `limitToLast(5)` itself. `Views.HistoryLatestFirst` assumes that list is in timestamp order.
- Alerts are modelled by meaning (`Handlers.Alert`). Their Arabic text, styling, three-second timer and animation are not.
- The loading spinner, the active-tab highlighting of `openTab` and `openTeacherTab` (their `event.target`), the register-type field toggle, and the date-picker default are left out. They only change what is visible. The one effect of a tab switch beyond that, the reports tab reloading the counts, is modelled by `Handlers.OpenTab`.
- Clearing the PIN field on logout and the reason field when the reason modal closes is left out. The model takes field contents as event inputs, not as state.
- Geolocation, camera and canvas APIs are abstract outcomes: `GeoOutcome`, `CameraOutcome` and a photo payload string. Position formatting (`toFixed`, accuracy rounding) is float formatting and is not modelled.
- `Date` readings are inputs: `Clock` holds the `toISOString()` and `toTimeString()` texts. The random draws of `generateId` and `generatePin` are inputs too.
- Directory.GeneratePin: computes `Math.floor` in exact real arithmetic, so IEEE double rounding of `r * 900000` is not modelled.
- Async interleaving is not modelled. An example is a logout between `saveAttendance` issuing its write and the write's `.then` reading the draft. Each handler runs to completion as one step.
- `loadTeacherProfile` and `loadStudentProfile` render profile cards: fixed text, plus the current time (`toLocaleString('ar-EG')`) on the teacher's card. They appear only as entries in the reload lists, and the clock text is not modelled.
- `getUserTitle` supplies the Arabic role title in the welcome and registration alerts. Alerts are modelled by meaning, carrying the role itself, so the title text is not modelled.

=== FILE: attendance.dfy ===
/**
  The record `saveAttendance` composes from the draft, the signed-in user, the
  last known location, the photo and the clock.
 */
module Attendance {
  import opened Text
  import opened Records

  /** One reading of `new Date()`: its `toISOString()` and its `toTimeString()`. */
  datatype Clock = Clock(iso: string, localTime: string)

  /** `toISOString().split('T')[0]`: the calendar day. */
  function DateOf(c: Clock): string {
    Before(c.iso, 'T')
  }

  /** `toTimeString().split(' ')[0]`: the local wall-clock time. */
  function TimeOf(c: Clock): string {
    Before(c.localTime, ' ')
  }

  /** For an ISO instant `day + "T" + rest`, the day the record carries is `day`. */
  lemma DateOfIso(c: Clock, day: string, rest: string)
    requires c.iso == day + "T" + rest
    requires 'T' !in day
    ensures DateOf(c) == day
  {
    BeforeSeparator(day, 'T', rest);
  }

  /** The record written by `saveAttendance`. Check-out is never filled in; the
      role, status and reason come from the draft, the name and id from the
      user, the date is the record's own timestamp up to its first `T`, and the
      check-in time is the local time up to its first space. */
  function BuildAttendance(d: Draft, u: User, location: Option<Location>, photo: Option<string>, c: Clock)
    : (r: AttendanceRecord)
    ensures r.timeOut == []
    ensures r.userType == d.userType && r.status == d.status && r.reason == d.reason
    ensures r.userName == u.name && r.userId == u.id
    ensures r.location == location && r.photo == photo
    ensures r.timestamp == c.iso
    ensures r.date <= r.timestamp && 'T' !in r.date
    ensures |r.date| < |r.timestamp| ==> r.timestamp[|r.date|] == 'T'
    ensures r.timeIn <= c.localTime && ' ' !in r.timeIn
    ensures |r.timeIn| < |c.localTime| ==> c.localTime[|r.timeIn|] == ' '
  {
    AttendanceRecord(
      d.userType, u.name, u.id, d.status, DateOf(c), TimeOf(c), "",
      location, photo, d.reason, c.iso)
  }

  /** For an ISO instant `day + "T" + rest`, the record written carries `day` as
      its date and that instant as its timestamp. */
  lemma RecordDateIsDay(d: Draft, u: User, location: Option<Location>, photo: Option<string>,
                        c: Clock, day: string, rest: string)
    requires c.iso == day + "T" + rest
    requires 'T' !in day
    ensures BuildAttendance(d, u, location, photo, c).date == day
    ensures BuildAttendance(d, u, location, photo, c).timestamp == day + "T" + rest
  {
    DateOfIso(c, day, rest);
  }
}

=== FILE: credentials.dfy ===
/**
  The fixed PIN table, the PIN check behind `login`, and the random session id
  given to a signed-in user.
 */
module Credentials {
  import opened Text
  import opened Records

  /** `PINS`: one shared six-digit PIN per role, with no white space to trim. */
  function PinOf(r: Role): (p: string)
    ensures |p| == 6 && AllDigits(p) && Tight(p)
  {
    match r
    case Owner => "123456"
    case Teacher => "111111"
    case Student => "000000"
  }

  /** How `login` judges the PIN field. */
  datatype PinCheck = MissingPin | WrongPin | Accepted

  /** The field is trimmed; a blank field is refused before the table is
      consulted, and otherwise only the role's own PIN is accepted. */
  function CheckPin(r: Role, field: string): (c: PinCheck)
    ensures c == MissingPin <==> Trim(field) == []
    ensures c == Accepted <==> Trim(field) == PinOf(r)
  {
    var pin := Trim(field);
    if pin == [] then MissingPin
    else if PinOf(r) == pin then Accepted
    else WrongPin
  }

  /** The role's PIN is accepted with any white space around it. */
  lemma OwnPinAccepted(r: Role, p: string, q: string)
    requires Blank(p) && Blank(q)
    ensures CheckPin(r, p + PinOf(r) + q) == Accepted
  {
    TrimPadded(p, PinOf(r), q);
  }

  /** No two roles share a PIN, so a field opens at most one dashboard. */
  lemma AcceptedForOneRole(r: Role, o: Role, field: string)
    requires r != o
    requires CheckPin(r, field) == Accepted
    ensures CheckPin(o, field) == WrongPin
  {
    assert PinOf(r)[0] != PinOf(o)[0] || PinOf(r)[5] != PinOf(o)[5];
  }

  /** `generateId`: `'user_'` followed by `substr(2, 9)` of the base-36
      rendering `repr` of a random number (normally `"0.xxxx..."`, but it can be
      shorter, as `"0.i"` for one half). */
  function GenerateId(repr: string): (id: string)
    ensures |id| == 5 + (if |repr| <= 2 then 0 else Min(9, |repr| - 2))
    ensures id[..5] == "user_"
    ensures forall i :: 5 <= i < |id| ==> id[i] == repr[i - 3]
  {
    "user_" + Substr(repr, 2, 9)
  }

  /** The characters after `user_` are exactly the third to eleventh characters
      of the rendering, so two renderings give the same id if and only if they
      agree there. */
  lemma GenerateIdSameIff(x: string, y: string)
    ensures GenerateId(x) == GenerateId(y) <==> x[Min(2, |x|)..Min(11, |x|)] == y[Min(2, |y|)..Min(11, |y|)]
  {
  }
}

=== FILE: directory.dfy ===
/**
  The owner's registration form: validation, the random PIN, and the user record
  `registerUser` writes.
 */
module Directory {
  import opened Text
  import opened Records

  /** The registration form as typed: role selector, name, class and subject fields. */
  datatype RegisterForm = RegisterForm(kind: Role, name: string, className: string, subject: string)

  /** The form after `clearRegisterForm`: the text fields emptied, the role kept. */
  function Cleared(f: RegisterForm): RegisterForm {
    f.(name := "", className := "", subject := "")
  }

  datatype RegError = NameRequired | ClassRequired | SubjectRequired

  datatype Result<+T, +E> = Success(value: T) | Failure(error: E)

  /** `Math.random()`: a real in [0, 1). */
  type Draw = r: real | 0.0 <= r < 1.0 witness 0.0

  /** `Math.floor(100000 + Math.random() * 900000).toString()`, in exact arithmetic:
      six decimal digits whose value is the floor of 100000 + draw * 900000,
      and so lies in [100000, 999999]. */
  function GeneratePin(draw: Draw): (pin: string)
    ensures |pin| == 6 && AllDigits(pin)
    ensures ParseDecimal(pin) == (100000.0 + draw * 900000.0).Floor
    ensures 100000 <= ParseDecimal(pin) <= 999999
  {
    var x := 100000.0 + draw * 900000.0;
    assert 100000.0 <= x < 1000000.0;
    var n := x.Floor;
    assert 100000 <= n <= 999999;
    assert Pow10(2) == 100 && Pow10(4) == 10000 && Pow10(5) == 100000 && Pow10(6) == 1000000;
    DecimalLength(n, 6);
    ParseDecimalString(n);
    DecimalString(n)
  }

  /** The checks of `registerUser`, in the order the code makes them, on the trimmed fields. */
  function Validate(f: RegisterForm): (e: Option<RegError>)
    ensures e == Some(NameRequired) <==> Blank(f.name)
    ensures e == Some(ClassRequired) <==> !Blank(f.name) && f.kind == Student && Blank(f.className)
    ensures e == Some(SubjectRequired) <==> !Blank(f.name) && f.kind == Teacher && Blank(f.subject)
  {
    if Trim(f.name) == [] then Some(NameRequired)
    else if f.kind == Student && Trim(f.className) == [] then Some(ClassRequired)
    else if f.kind == Teacher && Trim(f.subject) == [] then Some(SubjectRequired)
    else None
  }

  /** The record `registerUser` writes when the form is valid: trimmed name, a
      class only for students, a subject only for teachers, and a fresh PIN. */
  function Register(f: RegisterForm, registeredAt: string, draw: Draw): (r: Result<UserRecord, RegError>)
    ensures r.Failure? <==> Validate(f).Some?
    ensures r.Failure? ==> r.error == Validate(f).value
    ensures r.Success? ==>
      && r.value.name == Trim(f.name) && r.value.name != []
      && r.value.kind == f.kind
      && (r.value.className.Some? <==> f.kind == Student)
      && (r.value.className.Some? ==> r.value.className.value == Trim(f.className) != [])
      && (r.value.subject.Some? <==> f.kind == Teacher)
      && (r.value.subject.Some? ==> r.value.subject.value == Trim(f.subject) != [])
      && r.value.registeredAt == registeredAt
      && r.value.pin == GeneratePin(draw)
      && |r.value.pin| == 6 && AllDigits(r.value.pin)
      && 100000 <= ParseDecimal(r.value.pin) <= 999999
  {
    match Validate(f)
    case Some(e) => Failure(e)
    case None =>
      Success(UserRecord(
        Trim(f.name),
        f.kind,
        if f.kind == Student then Some(Trim(f.className)) else None,
        if f.kind == Teacher then Some(Trim(f.subject)) else None,
        registeredAt,
        GeneratePin(draw)))
  }
}

=== FILE: handlers.dfy ===
/**
  The page's event handlers as transitions of one immutable application state.

  The four globals `currentUser`, `currentStream`, `currentLocation` and
  `pendingAttendance` become the fields of `Session`, together with the camera
  streams whose tracks are still running and the visibility of the login form,
  the dashboards and the two modals. Device answers (geolocation, camera), the
  result of each database write, clock readings and random draws are inputs of
  the transitions. Each transition also reports the alerts it raises and the
  views it (re)loads.
 */
module Handlers {
  import opened Text
  import opened Records
  import opened Credentials
  import opened Directory
  import opened Attendance

  /** A camera stream handle, as returned by `getUserMedia`. */
  type StreamId = nat

  /** What is on screen: the login form, which dashboard, and the two modals. */
  datatype Screen = Screen(loginShown: bool, dashboard: Option<Role>, reasonModal: bool, cameraModal: bool)

  datatype Session = Session(
    user: Option<User>,
    stream: Option<StreamId>,
    location: Option<Location>,
    pending: Option<Draft>,
    live: set<StreamId>,
    screen: Screen)

  /** Everything a handler can touch: the session, the database and the owner's form. */
  datatype App = App(s: Session, db: Db, form: RegisterForm)

  /** The page as loaded: nobody signed in, no camera, no draft. */
  function Init(db: Db, form: RegisterForm): App {
    App(Session(None, None, None, None, {}, Screen(true, None, false, false)), db, form)
  }

  /** The outcome of `navigator.geolocation`: no API, a position, or an error or timeout. */
  datatype GeoOutcome = Unsupported | Fixed(position: Location) | GeoError

  /** The outcome of `getUserMedia`: a new stream, or a refusal. */
  datatype CameraOutcome = Granted(stream: StreamId) | Denied

  /** Why `startCameraProcess` gave up. */
  datatype PrepError = GpsUnsupported | CameraUnavailable

  /** The alerts of `showAlert`, by meaning. */
  datatype Alert =
    | PinRequired | PinIncorrect | Welcome(role: Role)
    | Invalid(error: RegError) | Registered(role: Role, pin: string) | RegisterFailed
    | ReasonRequired | PreparationFailed(cause: PrepError)
    | AttendanceSaved | AttendanceFailed | LoggedOut

  /** The loaders a handler calls. */
  datatype View =
    | TeachersList | StudentsList | StatsPanel
    | TeacherProfile | StudentsAttendance | StudentProfile | StudentHistoryList

  datatype Reaction = Reaction(app: App, alerts: seq<Alert>, loads: seq<View>)

  /** Nothing happens: the handler returned early without an alert, or threw. */
  function Quiet(a: App): Reaction {
    Reaction(a, [], [])
  }

  /** The stream handles a held `currentStream` accounts for. */
  function Held(h: Option<StreamId>): set<StreamId> {
    if h.Some? then {h.value} else {}
  }

  /** `showDashboard`: the loaders each role's dashboard calls. Only the owner's
      loads the lists and the counts, only the teacher's the day's check-ins, and
      only the student's the history. */
  function DashboardLoads(r: Role): (v: seq<View>)
    ensures 2 <= |v| <= 3
    ensures StatsPanel in v <==> r == Owner
    ensures TeachersList in v <==> r == Owner
    ensures StudentsList in v <==> r == Owner
    ensures StudentsAttendance in v <==> r == Teacher
    ensures TeacherProfile in v <==> r == Teacher
    ensures StudentHistoryList in v <==> r == Student
    ensures StudentProfile in v <==> r == Student
  {
    match r
    case Owner => [TeachersList, StudentsList, StatsPanel]
    case Teacher => [TeacherProfile, StudentsAttendance]
    case Student => [StudentProfile, StudentHistoryList]
  }

  /** The refresh `saveAttendance` triggers after a successful write. */
  function RefreshAfterSave(r: Role): seq<View> {
    match r
    case Owner => []
    case Teacher => [StudentsAttendance]
    case Student => [StudentHistoryList]
  }

  // ---------------------------------------------------------------- login / logout

  /** `login`: a blank or wrong PIN changes nothing and raises an error alert;
      the role's own PIN signs in as that role, named after it, and opens its
      dashboard. The camera, location and draft are left as they were. */
  function Login(a: App, role: Role, pinField: string, idRepr: string): (r: Reaction)
    ensures r.app.db == a.db && r.app.form == a.form
    ensures r.app.s.stream == a.s.stream && r.app.s.live == a.s.live
    ensures r.app.s.location == a.s.location && r.app.s.pending == a.s.pending
    ensures r.app.s.screen.reasonModal == a.s.screen.reasonModal
    ensures r.app.s.screen.cameraModal == a.s.screen.cameraModal
    ensures Trim(pinField) == PinOf(role) ==>
      && r.app.s.user.Some?
      && r.app.s.user.value.kind == role && r.app.s.user.value.name == RoleName(role)
      && r.app.s.user.value.id == GenerateId(idRepr)
      && !r.app.s.screen.loginShown && r.app.s.screen.dashboard == Some(role)
      && r.alerts == [Welcome(role)] && r.loads == DashboardLoads(role)
    ensures Trim(pinField) != PinOf(role) ==>
      && r.app == a && r.loads == []
      && r.alerts == [if Blank(pinField) then PinRequired else PinIncorrect]
  {
    match CheckPin(role, pinField)
    case MissingPin => Reaction(a, [PinRequired], [])
    case WrongPin => Reaction(a, [PinIncorrect], [])
    case Accepted =>
      var u := User(role, RoleName(role), GenerateId(idRepr));
      var screen := a.s.screen.(loginShown := false, dashboard := Some(role));
      Reaction(a.(s := a.s.(user := Some(u), screen := screen)), [Welcome(role)], DashboardLoads(role))
  }

  /** The screen after `logout`: login form back, dashboards and modals hidden. */
  const LoggedOutScreen := Screen(true, None, false, false)

  /** `logout`: whatever the state, the user and the draft are dropped and a
      held camera stream is stopped. The last location is kept. */
  function Logout(a: App): (r: Reaction)
    ensures r.app.s.user.None? && r.app.s.pending.None? && r.app.s.stream.None?
    ensures r.app.s.live == a.s.live - Held(a.s.stream)
    ensures r.app.s.location == a.s.location
    ensures r.app.s.screen == LoggedOutScreen
    ensures r.app.db == a.db && r.app.form == a.form
    ensures r.alerts == [LoggedOut] && r.loads == []
  {
    var live := if a.s.stream.Some? then a.s.live - {a.s.stream.value} else a.s.live;
    var s := Session(None, None, a.s.location, None, live, LoggedOutScreen);
    Reaction(a.(s := s), [LoggedOut], [])
  }

  // ---------------------------------------------------------------- capture preparation

  /** `getLocation` as seen by the session: a fix replaces `currentLocation`;
      an error or timeout leaves it as it was. */
  function LocationAfter(previous: Option<Location>, geo: GeoOutcome): Option<Location> {
    if geo.Fixed? then Some(geo.position) else previous
  }

  /** What capture preparation leaves behind when it starts from session `s`:
      missing geolocation support aborts with `s` as it was; otherwise the
      location is updated as `getLocation` does, and then a refused camera
      aborts while a granted one is held, counted as running, and shown in the
      camera modal. Nothing else of the session changes and no view reloads. */
  predicate PreparedFrom(s: Session, geo: GeoOutcome, cam: CameraOutcome, r: Reaction) {
    && r.loads == []
    && (geo.Unsupported? ==>
          r.app.s == s && r.alerts == [PreparationFailed(GpsUnsupported)])
    && (!geo.Unsupported? && cam.Denied? ==>
          && r.app.s == s.(location := LocationAfter(s.location, geo))
          && r.alerts == [PreparationFailed(CameraUnavailable)])
    && (!geo.Unsupported? && cam.Granted? ==>
          && r.app.s == s.(location := LocationAfter(s.location, geo),
                           stream := Some(cam.stream), live := s.live + {cam.stream},
                           screen := s.screen.(cameraModal := true))
          && r.alerts == [])
  }

  /** `startCameraProcess`: first the location, then the camera. Missing
      geolocation support aborts before the camera is asked; a geolocation error
      does not. A refused camera aborts with the location already updated. Only
      a granted camera opens the camera modal. The draft, the database and the
      form are never touched. */
  function Prepare(a: App, geo: GeoOutcome, cam: CameraOutcome): (r: Reaction)
    ensures r.app.db == a.db && r.app.form == a.form
    ensures r.app.s.user == a.s.user && r.app.s.pending == a.s.pending
    ensures geo.Unsupported? ==> r.app == a
    ensures geo.GeoError? ==> r.app.s.location == a.s.location
    ensures geo.Fixed? ==> r.app.s.location == Some(geo.position)
    ensures r.app.s.screen.cameraModal != a.s.screen.cameraModal || r.app.s.stream != a.s.stream
      ==> !geo.Unsupported? && cam.Granted?
    ensures PreparedFrom(a.s, geo, cam, r)
  {
    match geo
    case Unsupported => Reaction(a, [PreparationFailed(GpsUnsupported)], [])
    case _ =>
      var located := a.(s := a.s.(location := LocationAfter(a.s.location, geo)));
      match cam
      case Denied => Reaction(located, [PreparationFailed(CameraUnavailable)], [])
      case Granted(id) =>
        var s := located.s.(stream := Some(id), live := located.s.live + {id},
                            screen := located.s.screen.(cameraModal := true));
        Reaction(located.(s := s), [], [])
  }

  /** The draft a check-in starts from: no reason yet. */
  function FreshDraft(role: Role, status: Status): Draft {
    Draft(role, status, "")
  }

  /** `startAttendanceProcess`: a fresh draft, then capture preparation. */
  function StartAttendance(a: App, role: Role, status: Status, geo: GeoOutcome, cam: CameraOutcome): (r: Reaction)
    ensures r.app.s.pending == Some(Draft(role, status, ""))
    ensures r.app.db == a.db && r.app.form == a.form && r.app.s.user == a.s.user
    ensures r.app.s.screen.cameraModal <==> (!geo.Unsupported? && cam.Granted?) || a.s.screen.cameraModal
    ensures PreparedFrom(a.s.(pending := Some(Draft(role, status, ""))), geo, cam, r)
  {
    Prepare(a.(s := a.s.(pending := Some(FreshDraft(role, status)))), geo, cam)
  }

  /** `showReasonForm`: a fresh draft and the reason modal; nothing else. */
  function ShowReasonForm(a: App, role: Role, status: Status): (r: Reaction)
    ensures r.app.s.pending == Some(Draft(role, status, ""))
    ensures r.app.s.screen.reasonModal
    ensures r.app.s == a.s.(pending := r.app.s.pending, screen := a.s.screen.(reasonModal := true))
    ensures r.app.db == a.db && r.app.form == a.form && r.alerts == [] && r.loads == []
  {
    var s := a.s.(pending := Some(FreshDraft(role, status)), screen := a.s.screen.(reasonModal := true));
    Quiet(a.(s := s))
  }

  /** `closeReasonModal` on its own (the cancel button): the modal closes and
      the draft stays. */
  function CloseReasonModal(a: App): (r: Reaction)
    ensures !r.app.s.screen.reasonModal
    ensures r.app.s == a.s.(screen := a.s.screen.(reasonModal := false))
    ensures r.app.db == a.db && r.app.form == a.form && r.alerts == [] && r.loads == []
  {
    Quiet(a.(s := a.s.(screen := a.s.screen.(reasonModal := false))))
  }

  /** `submitAttendanceWithReason`: a blank reason changes nothing and raises an
      alert. Otherwise the trimmed reason goes into the draft, the reason modal
      closes and capture preparation starts. With no draft at all, writing the
      reason throws and nothing happens. */
  function SubmitReason(a: App, field: string, geo: GeoOutcome, cam: CameraOutcome): (r: Reaction)
    ensures r.app.db == a.db && r.app.form == a.form && r.app.s.user == a.s.user
    ensures Blank(field) ==> r.app == a && r.alerts == [ReasonRequired] && r.loads == []
    ensures !Blank(field) && a.s.pending.None? ==> r.app == a && r.alerts == [] && r.loads == []
    ensures !Blank(field) && a.s.pending.Some? ==>
      && r.app.s.pending == Some(a.s.pending.value.(reason := Trim(field)))
      && r.app.s.pending.value.reason != []
      && !r.app.s.screen.reasonModal
      && (r.app.s.screen.cameraModal <==> (!geo.Unsupported? && cam.Granted?) || a.s.screen.cameraModal)
      && PreparedFrom(a.s.(pending := Some(a.s.pending.value.(reason := Trim(field))),
                           screen := a.s.screen.(reasonModal := false)), geo, cam, r)
  {
    var reason := Trim(field);
    if reason == [] then Reaction(a, [ReasonRequired], [])
    else if a.s.pending.None? then Quiet(a)
    else
      var s := a.s.(pending := Some(a.s.pending.value.(reason := reason)),
                    screen := a.s.screen.(reasonModal := false));
      Prepare(a.(s := s), geo, cam)
  }

  // ---------------------------------------------------------------- capture and save

  /** `closeCamera`: a held stream is stopped and forgotten, and the camera modal closes. */
  function CloseCamera(a: App): (r: Reaction)
    ensures r.app.s.stream.None? && !r.app.s.screen.cameraModal
    ensures r.app.s.live == a.s.live - Held(a.s.stream)
    ensures r.app.s == a.s.(stream := None, live := r.app.s.live, screen := a.s.screen.(cameraModal := false))
    ensures r.app.db == a.db && r.app.form == a.form && r.alerts == [] && r.loads == []
  {
    var live := if a.s.stream.Some? then a.s.live - {a.s.stream.value} else a.s.live;
    Quiet(a.(s := a.s.(stream := None, live := live, screen := a.s.screen.(cameraModal := false))))
  }

  /** `saveAttendance(photo)` followed by `closeCamera`, as `capturePhoto` runs
      them. The record goes to the draft's role list when the write succeeds;
      either way the draft is kept and the camera is released. Without a draft
      or a user, composing the record throws, so nothing happens at all and the
      camera stays on. */
  function CapturePhoto(a: App, photo: string, c: Clock, writeOk: bool): (r: Reaction)
    ensures a.s.pending.None? || a.s.user.None? ==> r == Quiet(a)
    ensures a.s.pending.Some? && a.s.user.Some? ==>
      var d := a.s.pending.value;
      var rec := BuildAttendance(d, a.s.user.value, a.s.location, Some(photo), c);
      && Attendances(r.app.db, d.userType) == Attendances(a.db, d.userType) + (if writeOk then [rec] else [])
      && (forall o :: o != d.userType ==> Attendances(r.app.db, o) == Attendances(a.db, o))
      && r.app.db.users == a.db.users
      && r.app.form == a.form
      && r.app.s == a.s.(stream := None, live := a.s.live - Held(a.s.stream),
                         screen := a.s.screen.(cameraModal := false))
      && r.alerts == [if writeOk then AttendanceSaved else AttendanceFailed]
      && r.loads == (if writeOk then RefreshAfterSave(d.userType) else [])
  {
    if a.s.pending.None? || a.s.user.None? then Quiet(a)
    else
      var d := a.s.pending.value;
      var rec := BuildAttendance(d, a.s.user.value, a.s.location, Some(photo), c);
      var db := if writeOk then PushAttendance(a.db, d.userType, rec) else a.db;
      var closed := CloseCamera(a.(db := db)).app;
      Reaction(closed,
               [if writeOk then AttendanceSaved else AttendanceFailed],
               if writeOk then RefreshAfterSave(d.userType) else [])
  }

  // ---------------------------------------------------------------- registration

  /** `registerUser` on the current form: an invalid form changes nothing and
      names the first missing field. A valid one is written under the form's
      role; on success the text fields are cleared and the lists and counts
      reload, on failure the database and the form stay as they were. */
  function RegisterUser(a: App, registeredAt: string, draw: Draw, writeOk: bool): (r: Reaction)
    ensures r.app.s == a.s
    ensures Validate(a.form).Some? ==>
      r.app == a && r.alerts == [Invalid(Validate(a.form).value)] && r.loads == []
    ensures Validate(a.form).None? && !writeOk ==> r.app == a && r.alerts == [RegisterFailed] && r.loads == []
    ensures Validate(a.form).None? && writeOk ==>
      var u := Register(a.form, registeredAt, draw).value;
      && Users(r.app.db, a.form.kind) == Users(a.db, a.form.kind) + [u]
      && (forall o :: o != a.form.kind ==> Users(r.app.db, o) == Users(a.db, o))
      && r.app.db.attendance == a.db.attendance
      && r.app.form == Cleared(a.form)
      && r.alerts == [Registered(a.form.kind, u.pin)]
      && r.loads == [TeachersList, StudentsList, StatsPanel]
  {
    match Register(a.form, registeredAt, draw)
    case Failure(e) => Reaction(a, [Invalid(e)], [])
    case Success(u) =>
      if writeOk then
        Reaction(a.(db := PushUser(a.db, a.form.kind, u), form := Cleared(a.form)),
                 [Registered(a.form.kind, u.pin)], [TeachersList, StudentsList, StatsPanel])
      else
        Reaction(a, [RegisterFailed], [])
  }

  // ---------------------------------------------------------------- tabs

  /** `openTab`: switching the owner's tabs changes no state; opening the
      reports tab, and only that one, reloads the counts. */
  function OpenTab(a: App, tabName: string): (r: Reaction)
    ensures r.app == a && r.alerts == []
    ensures StatsPanel in r.loads <==> tabName == "reportsTab"
    ensures |r.loads| <= 1
  {
    Reaction(a, [], if tabName == "reportsTab" then [StatsPanel] else [])
  }

  // ---------------------------------------------------------------- the event loop

  /** One user action, with whatever the devices, the database and the clock answer. */
  datatype Event =
    | LoginClicked(role: Role, pinField: string, idRepr: string)
    | LogoutClicked
    | AttendanceClicked(role: Role, status: Status, geo: GeoOutcome, cam: CameraOutcome)
    | ReasonFormOpened(role: Role, status: Status)
    | ReasonSubmitted(field: string, geo: GeoOutcome, cam: CameraOutcome)
    | ReasonCancelled
    | PhotoCaptured(photo: string, clock: Clock, writeOk: bool)
    | CameraClosed
    | FormEdited(form: RegisterForm)
    | RegisterClicked(registeredAt: string, draw: Draw, writeOk: bool)
    | TabOpened(tabName: string)

  function Step(a: App, e: Event): Reaction {
    match e
    case LoginClicked(role, pin, idRepr) => Login(a, role, pin, idRepr)
    case LogoutClicked => Logout(a)
    case AttendanceClicked(role, status, geo, cam) => StartAttendance(a, role, status, geo, cam)
    case ReasonFormOpened(role, status) => ShowReasonForm(a, role, status)
    case ReasonSubmitted(field, geo, cam) => SubmitReason(a, field, geo, cam)
    case ReasonCancelled => CloseReasonModal(a)
    case PhotoCaptured(photo, c, ok) => CapturePhoto(a, photo, c, ok)
    case CameraClosed => CloseCamera(a)
    case FormEdited(f) => Quiet(a.(form := f))
    case RegisterClicked(at, draw, ok) => RegisterUser(a, at, draw, ok)
    case TabOpened(tabName) => OpenTab(a, tabName)
  }

  /** The state after a sequence of events. */
  function Run(a: App, es: seq<Event>): App
    decreases |es|
  {
    if es == [] then a else Run(Step(a, es[0]).app, es[1..])
  }
}

=== FILE: properties.dfy ===
/**
  Facts about sequences of handler calls: what survives which event, the
  camera-release discipline, and the end-to-end check-in and registration flows.
 */
module Properties {
  import opened Text
  import opened Records
  import opened Directory
  import opened Attendance
  import opened Views
  import opened Handlers

  // ---------------------------------------------------------------- the draft

  /** Only `logout` clears the draft: a check-in in progress survives every
      other event, including failed preparation, cancelled modals and failed writes. */
  lemma DraftClearedOnlyByLogout(a: App, e: Event)
    requires a.s.pending.Some?
    ensures Step(a, e).app.s.pending.None? <==> e.LogoutClicked?
  {
  }

  /** Only the three check-in entry points and `logout` change the draft at all. */
  lemma DraftChangedOnlyByCheckIn(a: App, e: Event)
    requires Step(a, e).app.s.pending != a.s.pending
    ensures e.LogoutClicked? || e.AttendanceClicked? || e.ReasonFormOpened? || e.ReasonSubmitted?
  {
  }

  // ---------------------------------------------------------------- camera release

  /** The camera discipline: every running stream is the one `currentStream`
      holds, a stream is held exactly while the camera modal is shown, and the
      modal is only shown for a draft. */
  predicate Tidy(s: Session) {
    && s.live <= Held(s.stream)
    && (s.stream.Some? <==> s.screen.cameraModal)
    && (s.screen.cameraModal ==> s.pending.Some?)
  }

  /** Starting capture preparation again while the camera modal is open. */
  predicate Restarts(a: App, e: Event) {
    (e.AttendanceClicked? || e.ReasonSubmitted?) && a.s.screen.cameraModal
  }

  lemma InitTidy(db: Db, form: RegisterForm)
    ensures Tidy(Init(db, form).s)
  {
  }

  /** Every event keeps the camera discipline, except a restart while a stream is held. */
  lemma StepKeepsTidy(a: App, e: Event)
    requires Tidy(a.s)
    requires !Restarts(a, e)
    ensures Tidy(Step(a, e).app.s)
  {
    match e
    case AttendanceClicked(role, status, geo, cam) =>
      PrepareFromIdleTidy(a.(s := a.s.(pending := Some(FreshDraft(role, status)))), geo, cam);
    case ReasonSubmitted(field, geo, cam) =>
      SubmitReasonTidy(a, field, geo, cam);
    case PhotoCaptured(photo, c, ok) =>
      CaptureTidy(a, photo, c, ok);
    case LoginClicked(role, pin, idRepr) =>
      LoginTidy(a, role, pin, idRepr);
    case LogoutClicked =>
    case ReasonFormOpened(role, status) =>
    case ReasonCancelled =>
    case CameraClosed =>
    case FormEdited(f) =>
    case RegisterClicked(at, draw, ok) =>
      RegisterTidy(a, at, draw, ok);
    case TabOpened(tabName) =>
  }

  lemma LoginTidy(a: App, role: Role, pin: string, idRepr: string)
    requires Tidy(a.s)
    ensures Tidy(Login(a, role, pin, idRepr).app.s)
  {
  }

  lemma RegisterTidy(a: App, at: string, draw: Draw, ok: bool)
    requires Tidy(a.s)
    ensures Tidy(RegisterUser(a, at, draw, ok).app.s)
  {
  }

  lemma CaptureTidy(a: App, photo: string, c: Clock, ok: bool)
    requires Tidy(a.s)
    ensures Tidy(CapturePhoto(a, photo, c, ok).app.s)
  {
  }

  lemma SubmitReasonTidy(a: App, field: string, geo: GeoOutcome, cam: CameraOutcome)
    requires Tidy(a.s) && !a.s.screen.cameraModal
    ensures Tidy(SubmitReason(a, field, geo, cam).app.s)
  {
    if !Blank(field) && a.s.pending.Some? {
      var s := a.s.(pending := Some(a.s.pending.value.(reason := Trim(field))),
                    screen := a.s.screen.(reasonModal := false));
      PrepareFromIdleTidy(a.(s := s), geo, cam);
    }
  }

  /** Capture preparation from a state with no camera and a draft ends tidy,
      whatever the devices answer. */
  lemma PrepareFromIdleTidy(a: App, geo: GeoOutcome, cam: CameraOutcome)
    requires a.s.live == {} && a.s.stream.None? && !a.s.screen.cameraModal
    requires a.s.pending.Some?
    ensures Tidy(Prepare(a, geo, cam).app.s)
  {
  }

  /** No event of `es` restarts capture preparation over an open camera. */
  predicate NoRestart(a: App, es: seq<Event>)
    decreases |es|
  {
    es == [] || (!Restarts(a, es[0]) && NoRestart(Step(a, es[0]).app, es[1..]))
  }

  /** From a tidy state, any run without restarts ends tidy: the only stream
      running is the one held, and it is held only while its modal is open. */
  lemma {:induction false} RunKeepsTidy(a: App, es: seq<Event>)
    requires Tidy(a.s)
    requires NoRestart(a, es)
    ensures Tidy(Run(a, es).s)
    decreases |es|
  {
    if es != [] {
      StepKeepsTidy(a, es[0]);
      RunKeepsTidy(Step(a, es[0]).app, es[1..]);
    }
  }

  /** In a tidy state, closing the camera, capturing a photo and logging out
      each leave no stream running. */
  lemma ExitsReleaseCamera(a: App, photo: string, c: Clock, writeOk: bool)
    requires Tidy(a.s)
    ensures CloseCamera(a).app.s.live == {}
    ensures Logout(a).app.s.live == {}
    ensures a.s.user.Some? && a.s.screen.cameraModal ==> CapturePhoto(a, photo, c, writeOk).app.s.live == {}
  {
  }

  /** The exception to the discipline: preparation started while a stream is
      held overwrites `currentStream` without stopping the old stream, which then
      keeps running after the camera is closed. */
  lemma RestartLeaksStream(a: App, role: Role, status: Status, geo: GeoOutcome, prior: StreamId, another: StreamId)
    requires a.s.stream == Some(prior) && prior in a.s.live
    requires !geo.Unsupported? && another != prior
    ensures var r := CloseCamera(StartAttendance(a, role, status, geo, Granted(another)).app).app;
      prior in r.s.live && r.s.stream.None? && !Tidy(r.s)
  {
  }

  // ---------------------------------------------------------------- check-in flows

  /** A failed location lookup keeps the previous `currentLocation`, so a later
      record carries a position from an earlier attempt. */
  lemma StaleLocationReused(a: App, role: Role, here: Location, s1: StreamId, s2: StreamId, photo: string, c: Clock)
    requires a.s.user.Some?
    ensures
      var r1 := StartAttendance(a, role, Hadir, Fixed(here), Granted(s1)).app;
      var r2 := CloseCamera(r1).app;
      var r3 := StartAttendance(r2, role, Hadir, GeoError, Granted(s2)).app;
      var r4 := CapturePhoto(r3, photo, c, true).app;
      && Attendances(r4.db, role)
         == Attendances(a.db, role) + [BuildAttendance(Draft(role, Hadir, ""), a.s.user.value, Some(here), Some(photo), c)]
      && Attendances(r4.db, role)[|Attendances(r4.db, role)| - 1].location == Some(here)
  {
  }

  /** A refused camera writes nothing and keeps the draft; trying again with
      the camera allowed writes one record with that draft's status. */
  lemma RetryAfterCameraDenied(a: App, role: Role, geo: GeoOutcome, id: StreamId, photo: string, c: Clock)
    requires a.s.user.Some? && !geo.Unsupported?
    ensures
      var r1 := StartAttendance(a, role, Hadir, geo, Denied);
      && r1.app.db == a.db
      && r1.app.s.pending == Some(Draft(role, Hadir, ""))
      && r1.app.s.stream == a.s.stream
      && r1.alerts == [PreparationFailed(CameraUnavailable)]
    ensures
      var r1 := StartAttendance(a, role, Hadir, geo, Denied).app;
      var r2 := StartAttendance(r1, role, Hadir, geo, Granted(id)).app;
      var r3 := CapturePhoto(r2, photo, c, true).app;
      var saved := Attendances(r3.db, role);
      && |saved| == |Attendances(a.db, role)| + 1
      && saved[|saved| - 1].status == Hadir
      && saved[|saved| - 1].timeOut == []
      && saved[|saved| - 1].photo == Some(photo)
  {
  }

  /** A present check-in written on day `DateOf(c)` raises that day's present
      count by exactly one. */
  lemma PresentCheckInCounted(a: App, role: Role, geo: GeoOutcome, id: StreamId, photo: string, c: Clock)
    requires a.s.user.Some? && !geo.Unsupported?
    ensures
      var r1 := StartAttendance(a, role, Hadir, geo, Granted(id)).app;
      var r2 := CapturePhoto(r1, photo, c, true).app;
      LoadStats(r2.db, DateOf(c)).presentToday == LoadStats(a.db, DateOf(c)).presentToday + 1
  {
    var r1 := StartAttendance(a, role, Hadir, geo, Granted(id)).app;
    var rec := BuildAttendance(Draft(role, Hadir, ""), a.s.user.value, r1.s.location, Some(photo), c);
    var r2 := CapturePhoto(r1, photo, c, true).app;
    assert r2.db == PushAttendance(a.db, role, rec);
    PresentCountAfterPush(a.db, role, rec, DateOf(c));
  }

  /** A leave or sick request with a blank reason writes nothing, opens no
      camera and keeps the reason form open. */
  lemma BlankReasonStopsCheckIn(a: App, role: Role, status: Status, field: string, geo: GeoOutcome, cam: CameraOutcome)
    requires Blank(field)
    ensures
      var r1 := ShowReasonForm(a, role, status).app;
      var r2 := SubmitReason(r1, field, geo, cam);
      && r2.app == r1
      && r2.app.db == a.db
      && r2.app.s.screen.reasonModal
      && r2.app.s.screen.cameraModal == a.s.screen.cameraModal
      && r2.app.s.pending == Some(Draft(role, status, ""))
  {
  }

  /** After any event, opening the reports tab shows the counts of the
      database that event left behind, and changes nothing. */
  lemma ReportsTabShowsCurrentCounts(a: App, e: Event, today: string)
    ensures
      var r1 := Step(a, e).app;
      var r2 := Step(r1, TabOpened("reportsTab"));
      && r2.app == r1
      && r2.loads == [StatsPanel]
      && LoadStats(r2.app.db, today) == LoadStats(r1.db, today)
  {
  }

  // ---------------------------------------------------------------- registration

  /** A registered student shows up in the student count the next time the
      stats are loaded; the other counts do not move. */
  lemma RegistrationCounted(a: App, at: string, draw: Draw, today: string)
    requires a.form.kind == Student && !Blank(a.form.name) && !Blank(a.form.className)
    ensures
      var r := RegisterUser(a, at, draw, true);
      && LoadStats(r.app.db, today).students == LoadStats(a.db, today).students + 1
      && LoadStats(r.app.db, today).teachers == LoadStats(a.db, today).teachers
      && LoadStats(r.app.db, today).presentToday == LoadStats(a.db, today).presentToday
      && StatsPanel in r.loads
  {
  }

  /** A valid student form adds one student at the end of the student list,
      carrying the trimmed name and class, no subject, and the six-digit PIN
      drawn for it. */
  lemma RegisterStudent(a: App, at: string, draw: Draw)
    requires a.form.kind == Student && !Blank(a.form.name) && !Blank(a.form.className)
    ensures
      var students := Users(RegisterUser(a, at, draw, true).app.db, Student);
      && |students| == |Users(a.db, Student)| + 1
      && students[|students| - 1].className == Some(Trim(a.form.className))
      && students[|students| - 1].subject.None?
      && students[|students| - 1].name == Trim(a.form.name)
      && students[|students| - 1].pin == GeneratePin(draw)
      && |students[|students| - 1].pin| == 6 && AllDigits(students[|students| - 1].pin)
  {
    var u := Register(a.form, at, draw).value;
    var students := Users(RegisterUser(a, at, draw, true).app.db, Student);
    assert students == Users(a.db, Student) + [u];
  }
}

=== FILE: records.dfy ===
/**
  The entities of the attendance tracker: roles, attendance statuses, the
  signed-in user, the attendance draft, the records written to the realtime
  database, and the database itself as one collection per role.
 */
module Records {

  datatype Option<+T> = None | Some(value: T)

  /** The three roles of the PIN table and of the dashboards. */
  datatype Role = Owner | Teacher | Student

  /** The role as the code spells it; also the display name of a signed-in user. */
  function RoleName(r: Role): string {
    match r
    case Owner => "owner"
    case Teacher => "teacher"
    case Student => "student"
  }

  /** Attendance statuses, stored as the literals `hadir` (present), `izin`
      (on leave) and `sakit` (sick). */
  datatype Status = Hadir | Izin | Sakit

  /** A device position; the coordinates are never computed on, only carried. */
  datatype Location = Location(latitude: real, longitude: real, accuracy: real, timestamp: string)

  /** `currentUser`: the role, a display name and a random session id. */
  datatype User = User(kind: Role, name: string, id: string)

  /** `pendingAttendance`: the check-in being prepared. */
  datatype Draft = Draft(userType: Role, status: Status, reason: string)

  /** A registered teacher or student (`type` and `class` in the stored JSON). */
  datatype UserRecord = UserRecord(
    name: string,
    kind: Role,
    className: Option<string>,
    subject: Option<string>,
    registeredAt: string,
    pin: string)

  /** One check-in as stored under `attendance/<role>s`. */
  datatype AttendanceRecord = AttendanceRecord(
    userType: Role,
    userName: string,
    userId: string,
    status: Status,
    date: string,
    timeIn: string,
    timeOut: string,
    location: Option<Location>,
    photo: Option<string>,
    reason: string,
    timestamp: string)

  /** Database path of a role's user list. */
  function UserPath(r: Role): string {
    "users/" + RoleName(r) + "s"
  }

  /** Database path of a role's attendance list. */
  function AttendancePath(r: Role): string {
    "attendance/" + RoleName(r) + "s"
  }

  /** Different roles write to different paths, so the database can be keyed by role. */
  lemma PathsDistinct(a: Role, b: Role)
    requires a != b
    ensures UserPath(a) != UserPath(b)
    ensures AttendancePath(a) != AttendancePath(b)
  {
    assert UserPath(a)[6] != UserPath(b)[6];
    assert AttendancePath(a)[11] != AttendancePath(b)[11];
  }

  /** The realtime database as far as the tracker uses it: `users/<role>s` and
      `attendance/<role>s`, each a list in insertion (push-key) order. A role
      with no entry is a path that does not exist yet. */
  datatype Db = Db(users: map<Role, seq<UserRecord>>, attendance: map<Role, seq<AttendanceRecord>>)

  /** A database none of whose paths exist yet. */
  const EmptyDb := Db(map[], map[])

  function Users(db: Db, r: Role): seq<UserRecord> {
    if r in db.users then db.users[r] else []
  }

  function Attendances(db: Db, r: Role): seq<AttendanceRecord> {
    if r in db.attendance then db.attendance[r] else []
  }

  /** `push().set(record)` under `users/<role>s`: appends to that list only. */
  function PushUser(db: Db, r: Role, u: UserRecord): (db': Db)
    ensures Users(db', r) == Users(db, r) + [u]
    ensures forall o :: o != r ==> Users(db', o) == Users(db, o)
    ensures db'.attendance == db.attendance
  {
    db.(users := db.users[r := Users(db, r) + [u]])
  }

  /** `push().set(record)` under `attendance/<role>s`: appends to that list only. */
  function PushAttendance(db: Db, r: Role, a: AttendanceRecord): (db': Db)
    ensures Attendances(db', r) == Attendances(db, r) + [a]
    ensures forall o :: o != r ==> Attendances(db', o) == Attendances(db, o)
    ensures db'.users == db.users
  {
    db.(attendance := db.attendance[r := Attendances(db, r) + [a]])
  }
}

=== FILE: text.dfy ===
/**
  String helpers with the semantics of the JavaScript built-ins the attendance
  tracker relies on: `String.prototype.trim`, `s.split(c)[0]`, `s.substr(start, n)`
  and `Number.prototype.toString()` on a non-negative integer below 10^21.
 */
module Text {

  /** The characters `trim` strips: ECMAScript WhiteSpace and LineTerminator,
      compared by code point. */
  predicate IsSpace(c: char) {
    var n := c as int;
    || n == 0x09 || n == 0x0A || n == 0x0B || n == 0x0C || n == 0x0D || n == 0x20
    || n == 0xA0 || n == 0x1680 || (0x2000 <= n <= 0x200A)
    || n == 0x2028 || n == 0x2029 || n == 0x202F || n == 0x205F || n == 0x3000 || n == 0xFEFF
  }

  /** Every character of `s` is white space (the empty string included). */
  predicate Blank(s: string) {
    forall i :: 0 <= i < |s| ==> IsSpace(s[i])
  }

  /** True when `s` neither starts nor ends with white space. */
  predicate Tight(s: string) {
    s == [] || (!IsSpace(s[0]) && !IsSpace(s[|s| - 1]))
  }

  /** Drops leading white space: what is left is a suffix of `s`, everything
      dropped is white space, and what is left does not start with white space. */
  function TrimStart(s: string): (r: string)
    ensures |r| <= |s| && r == s[|s| - |r|..]
    ensures Blank(s[..|s| - |r|])
    ensures r == [] || !IsSpace(r[0])
  {
    if |s| > 0 && IsSpace(s[0]) then
      var r := TrimStart(s[1..]);
      assert s[..|s| - |r|] == [s[0]] + s[1..][..|s| - 1 - |r|];
      r
    else s
  }

  /** Drops trailing white space: what is left is a prefix of `s`, everything
      dropped is white space, and what is left does not end with white space. */
  function TrimEnd(s: string): (r: string)
    ensures |r| <= |s| && r == s[..|r|]
    ensures Blank(s[|r|..])
    ensures r == [] || !IsSpace(r[|r| - 1])
  {
    if |s| > 0 && IsSpace(s[|s| - 1]) then
      var r := TrimEnd(s[..|s| - 1]);
      assert s[|r|..] == s[..|s| - 1][|r|..] + [s[|s| - 1]];
      r
    else s
  }

  /** `String.prototype.trim`. The result is empty exactly when the input is
      blank, which is the case JavaScript's `!s.trim()` tests. */
  function Trim(s: string): (r: string)
    ensures |r| <= |s|
    ensures Tight(r)
    ensures r == [] <==> Blank(s)
  {
    TrimEmptyIffBlank(s);
    TrimEnd(TrimStart(s))
  }

  lemma TrimEmptyIffBlank(s: string)
    ensures TrimEnd(TrimStart(s)) == [] <==> Blank(s)
  {
    var t := TrimStart(s);
    var k := |s| - |t|;
    if TrimEnd(t) == [] {
      assert Blank(t) by { assert t[0..] == t; }
      forall i | 0 <= i < |s|
        ensures IsSpace(s[i])
      {
        if i < k {
          assert s[i] == s[..k][i];
        } else {
          assert s[i] == t[i - k];
        }
      }
    } else {
      assert t != [] && t[0] == s[k];
    }
  }

  lemma {:induction false} TrimStartPadded(p: string, u: string)
    requires Blank(p)
    requires u == [] || !IsSpace(u[0])
    ensures TrimStart(p + u) == u
    decreases |p|
  {
    if p == [] {
      assert p + u == u;
    } else {
      assert (p + u)[1..] == p[1..] + u;
      TrimStartPadded(p[1..], u);
    }
  }

  lemma {:induction false} TrimEndPadded(u: string, q: string)
    requires Blank(q)
    requires u == [] || !IsSpace(u[|u| - 1])
    ensures TrimEnd(u + q) == u
    decreases |q|
  {
    if q == [] {
      assert u + q == u;
    } else {
      assert (u + q)[..|u + q| - 1] == u + q[..|q| - 1];
      TrimEndPadded(u, q[..|q| - 1]);
    }
  }

  /** Trimming a string padded on both sides by white space recovers exactly the
      padded text, provided the text itself has no white space at its ends. */
  lemma TrimPadded(p: string, t: string, q: string)
    requires Blank(p) && Blank(q) && Tight(t)
    ensures Trim(p + t + q) == t
  {
    assert p + t + q == p + (t + q);
    if t == [] {
      assert t + q == q;
      TrimStartPadded(p + q, []);
      assert p + q + [] == p + q;
      assert Blank(p + q);
      assert TrimStart(p + q) == [];
    } else {
      assert (t + q)[0] == t[0];
      TrimStartPadded(p, t + q);
      TrimEndPadded(t, q);
    }
  }

  /** Trimming twice is trimming once. */
  lemma TrimIdempotent(s: string)
    ensures Trim(Trim(s)) == Trim(s)
  {
    var t := Trim(s);
    TrimPadded([], t, []);
    assert [] + t + [] == t;
  }

  /** `s.split(c)[0]`: the longest prefix of `s` that does not contain `c`. */
  function Before(s: string, c: char): (r: string)
    ensures r <= s
    ensures c !in r
    ensures |r| < |s| ==> s[|r|] == c
  {
    if s == [] then []
    else if s[0] == c then []
    else [s[0]] + Before(s[1..], c)
  }

  /** The part before the first separator is what `split` returns first, whatever follows. */
  lemma {:induction false} BeforeSeparator(head: string, c: char, tail: string)
    requires c !in head
    ensures Before(head + [c] + tail, c) == head
    decreases |head|
  {
    if head == [] {
      assert (head + [c] + tail)[0] == c;
    } else {
      assert (head + [c] + tail)[1..] == head[1..] + [c] + tail;
      BeforeSeparator(head[1..], c, tail);
    }
  }

  /** `s.substr(start, n)` for non-negative arguments: at most `n` characters
      from position `start`, and nothing when `start` is past the end. */
  function Substr(s: string, start: nat, n: nat): (r: string)
    ensures |r| <= n
    ensures start < |s| ==> |r| == Min(n, |s| - start)
    ensures forall i :: 0 <= i < |r| ==> start + i < |s| && r[i] == s[start + i]
  {
    if start >= |s| then [] else s[start..start + Min(n, |s| - start)]
  }

  function Min(a: int, b: int): int {
    if a <= b then a else b
  }

  predicate IsDigit(c: char) {
    '0' <= c <= '9'
  }

  predicate AllDigits(s: string) {
    forall i :: 0 <= i < |s| ==> IsDigit(s[i])
  }

  function DigitChar(d: nat): (c: char)
    requires d < 10
    ensures IsDigit(c)
  {
    (('0' as int) + d) as char
  }

  function DigitValue(c: char): (d: nat)
    requires IsDigit(c)
    ensures d < 10
  {
    (c as int) - ('0' as int)
  }

  /** `n.toString()` for a natural number below 10^21 (from there on JavaScript
      switches to exponent notation): decimal digits, most significant first,
      with no leading zero. */
  function DecimalString(n: nat): (r: string)
    ensures |r| >= 1
    ensures AllDigits(r)
    ensures n > 0 ==> r[0] != '0'
    decreases n
  {
    if n < 10 then [DigitChar(n)] else DecimalString(n / 10) + [DigitChar(n % 10)]
  }

  /** The value of a string of decimal digits. */
  function ParseDecimal(s: string): nat
    requires AllDigits(s)
  {
    if s == [] then 0 else ParseDecimal(s[..|s| - 1]) * 10 + DigitValue(s[|s| - 1])
  }

  function Pow10(k: nat): (r: nat)
    ensures r >= 1
  {
    if k == 0 then 1 else 10 * Pow10(k - 1)
  }

  /** Reading back the decimal rendering of `n` gives `n`. */
  lemma {:induction false} ParseDecimalString(n: nat)
    ensures ParseDecimal(DecimalString(n)) == n
    decreases n
  {
    var s := DecimalString(n);
    if n < 10 {
      assert s[..0] == [];
    } else {
      ParseDecimalString(n / 10);
      assert s[..|s| - 1] == DecimalString(n / 10);
    }
  }

  /** A number with exactly `k` decimal digits renders as `k` characters. */
  lemma {:induction false} DecimalLength(n: nat, k: nat)
    requires k >= 1 && Pow10(k - 1) <= n < Pow10(k)
    ensures |DecimalString(n)| == k
    decreases k
  {
    if k == 1 {
      assert n < 10;
    } else {
      assert Pow10(k - 1) == 10 * Pow10(k - 2);
      assert n >= 10;
      DecimalLength(n / 10, k - 1);
    }
  }
}

=== FILE: views.dfy ===
/**
  The computations behind the dashboards: the "present today" count of the
  reports tab, a teacher's list of the day's check-ins, and the history on the
  student dashboard, which reads the whole `attendance/students` list and so
  shows the newest check-ins of all students, not of the signed-in one.
 */
module Views {
  import opened Text
  import opened Records

  /** A record counted as present on `day`. */
  predicate PresentOn(a: AttendanceRecord, day: string) {
    a.date == day && a.status == Hadir
  }

  /** Reference count: how many records of `rs` are present on `day`. */
  function PresentCount(rs: seq<AttendanceRecord>, day: string): nat {
    if rs == [] then 0
    else PresentCount(rs[..|rs| - 1], day) + (if PresentOn(rs[|rs| - 1], day) then 1 else 0)
  }

  /** The lists of a snapshot of `attendance`, one after another. */
  function Flatten(groups: seq<seq<AttendanceRecord>>): seq<AttendanceRecord> {
    if groups == [] then [] else Flatten(groups[..|groups| - 1]) + groups[|groups| - 1]
  }

  /** The count of present records over two lists is the sum of the counts. */
  lemma {:induction false} PresentCountConcat(xs: seq<AttendanceRecord>, ys: seq<AttendanceRecord>, day: string)
    ensures PresentCount(xs + ys, day) == PresentCount(xs, day) + PresentCount(ys, day)
    decreases |ys|
  {
    if ys == [] {
      assert xs + ys == xs;
    } else {
      var ys' := ys[..|ys| - 1];
      assert (xs + ys)[..|xs + ys| - 1] == xs + ys';
      assert (xs + ys)[|xs + ys| - 1] == ys[|ys| - 1];
      PresentCountConcat(xs, ys', day);
    }
  }

  /** The reference count is the number of positions holding a present record. */
  lemma {:induction false} PresentCountIsCardinality(rs: seq<AttendanceRecord>, day: string)
    ensures PresentCount(rs, day) == |set i | 0 <= i < |rs| && PresentOn(rs[i], day)|
    decreases |rs|
  {
    if rs != [] {
      var n := |rs| - 1;
      var init := rs[..n];
      PresentCountIsCardinality(init, day);
      var before := set i | 0 <= i < n && PresentOn(init[i], day);
      var all := set i | 0 <= i < |rs| && PresentOn(rs[i], day);
      if PresentOn(rs[n], day) {
        assert all == before + {n};
      } else {
        assert all == before;
      }
    }
  }

  /** The counting loop of `loadStats`: over every role group of the snapshot,
      over every record in it, count those dated `today` with status `hadir`. */
  method CountPresentToday(groups: seq<seq<AttendanceRecord>>, today: string) returns (count: nat)
    ensures count == PresentCount(Flatten(groups), today)
  {
    count := 0;
    var g := 0;
    while g < |groups|
      invariant 0 <= g <= |groups|
      invariant count == PresentCount(Flatten(groups[..g]), today)
    {
      var group := groups[g];
      var k := 0;
      while k < |group|
        invariant 0 <= k <= |group|
        invariant count == PresentCount(Flatten(groups[..g]), today) + PresentCount(group[..k], today)
      {
        assert group[..k + 1][..k] == group[..k];
        if group[k].date == today && group[k].status == Hadir {
          count := count + 1;
        }
        k := k + 1;
      }
      assert group[..k] == group;
      assert groups[..g + 1][..g] == groups[..g];
      PresentCountConcat(Flatten(groups[..g]), group, today);
      g := g + 1;
    }
    assert groups[..g] == groups;
  }

  /** The `attendance` snapshot: its children `owners`, `students`, `teachers`
      in key order. */
  function AttendanceGroups(db: Db): seq<seq<AttendanceRecord>> {
    [Attendances(db, Owner), Attendances(db, Student), Attendances(db, Teacher)]
  }

  /** What the reports tab shows. */
  datatype Stats = Stats(teachers: nat, students: nat, presentToday: nat)

  /** `loadStats`: list sizes (zero for a missing list) and the present-today count. */
  function LoadStats(db: Db, today: string): (s: Stats)
    ensures s.teachers == |Users(db, Teacher)| && s.students == |Users(db, Student)|
    ensures s.presentToday == PresentCount(Attendances(db, Owner) + Attendances(db, Student) + Attendances(db, Teacher), today)
  {
    var groups := AttendanceGroups(db);
    var o, st, t := Attendances(db, Owner), Attendances(db, Student), Attendances(db, Teacher);
    assert Flatten(groups[..1]) == o by { assert groups[..1][..0] == []; }
    assert Flatten(groups[..2]) == o + st by { assert groups[..2][..1] == groups[..1]; }
    assert Flatten(groups) == o + st + t;
    Stats(|Users(db, Teacher)|, |Users(db, Student)|, PresentCount(Flatten(groups), today))
  }

  /** A database with no paths yet shows zero everywhere. */
  lemma StatsOfEmptyDb(today: string)
    ensures LoadStats(EmptyDb, today) == Stats(0, 0, 0)
  {
  }

  /** Adding one record to any role's attendance list raises the present count
      by one when the record is present on that day, and leaves it otherwise. */
  lemma PresentCountAfterPush(db: Db, r: Role, a: AttendanceRecord, today: string)
    ensures LoadStats(PushAttendance(db, r, a), today).presentToday
         == LoadStats(db, today).presentToday + (if PresentOn(a, today) then 1 else 0)
  {
    var db' := PushAttendance(db, r, a);
    var o, s, t := Attendances(db, Owner), Attendances(db, Student), Attendances(db, Teacher);
    PresentCountConcat(o, s, today);
    PresentCountConcat(o + s, t, today);
    var one := PresentCount([a], today);
    assert [a][..0] == [];
    match r
    case Owner =>
      PresentCountConcat(o, [a], today);
      PresentCountConcat(o + [a], s, today);
      PresentCountConcat(o + [a] + s, t, today);
    case Student =>
      PresentCountConcat(s, [a], today);
      PresentCountConcat(o, s + [a], today);
      PresentCountConcat(o + (s + [a]), t, today);
      assert o + (s + [a]) == o + s + [a];
    case Teacher =>
      PresentCountConcat(t, [a], today);
      PresentCountConcat(o + s, t + [a], today);
      assert o + s + (t + [a]) == o + s + t + [a];
  }

  /** Lexicographic order on strings, which for ISO instants is time order. */
  predicate LexLe(a: string, b: string) {
    a == [] || (b != [] && (a[0] < b[0] || (a[0] == b[0] && LexLe(a[1..], b[1..]))))
  }

  /** Oldest first: the order of `orderByChild('timestamp')`. */
  predicate Ascending(rs: seq<AttendanceRecord>) {
    forall i, j :: 0 <= i < j < |rs| ==> LexLe(rs[i].timestamp, rs[j].timestamp)
  }

  /** Newest first. */
  predicate Descending(rs: seq<AttendanceRecord>) {
    forall i, j :: 0 <= i < j < |rs| ==> LexLe(rs[j].timestamp, rs[i].timestamp)
  }

  /** `Array.prototype.reverse`. */
  function Reverse<T>(s: seq<T>): (r: seq<T>)
    ensures |r| == |s|
    ensures forall i :: 0 <= i < |s| ==> r[i] == s[|s| - 1 - i]
  {
    if s == [] then [] else [s[|s| - 1]] + Reverse(s[..|s| - 1])
  }

  /** Reversing twice gives the sequence back. */
  lemma ReverseReverse<T>(s: seq<T>)
    ensures Reverse(Reverse(s)) == s
  {
  }

  /** `limitToLast(n)`: the last `n` entries, or all of them when there are fewer. */
  function LimitToLast<T>(s: seq<T>, n: nat): (r: seq<T>)
    ensures |r| == Min(n, |s|)
    ensures r == s[|s| - |r|..]
  {
    s[|s| - Min(n, |s|)..]
  }

  /** `loadStudentHistory`: from the whole student attendance list in timestamp
      order (no per-user filter), the last five records, latest first. */
  function StudentHistory(rs: seq<AttendanceRecord>): (h: seq<AttendanceRecord>)
    ensures |h| == Min(5, |rs|) && |h| <= 5
    ensures forall i :: 0 <= i < |h| ==> h[i] == rs[|rs| - 1 - i]
    ensures rs != [] ==> h != [] && h[0] == rs[|rs| - 1]
  {
    Reverse(LimitToLast(rs, 5))
  }

  /** Shown in reverse, the history is exactly the newest five records in order. */
  lemma HistoryIsNewestFive(rs: seq<AttendanceRecord>)
    ensures Reverse(StudentHistory(rs)) == LimitToLast(rs, 5)
  {
    ReverseReverse(LimitToLast(rs, 5));
  }

  /** A snapshot ordered by timestamp yields a history ordered newest first. */
  lemma HistoryLatestFirst(rs: seq<AttendanceRecord>)
    requires Ascending(rs)
    ensures Descending(StudentHistory(rs))
  {
    var h := StudentHistory(rs);
    forall i, j | 0 <= i < j < |h|
      ensures LexLe(h[j].timestamp, h[i].timestamp)
    {
      assert h[j] == rs[|rs| - 1 - j] && h[i] == rs[|rs| - 1 - i];
    }
  }

  /** `orderByChild('date').equalTo(day)` in `loadStudentsAttendance`: the
      records of that day, in list order. */
  function DayRecords(rs: seq<AttendanceRecord>, day: string): (r: seq<AttendanceRecord>)
    ensures forall a :: a in r <==> a in rs && a.date == day
    ensures |r| <= |rs|
  {
    if rs == [] then []
    else (if rs[0].date == day then [rs[0]] else []) + DayRecords(rs[1..], day)
  }

  /** A record pushed to the list shows up at the end of the day's view exactly
      when it carries that day. */
  lemma {:induction false} DayRecordsAfterPush(rs: seq<AttendanceRecord>, a: AttendanceRecord, day: string)
    ensures DayRecords(rs + [a], day) == DayRecords(rs, day) + (if a.date == day then [a] else [])
    decreases |rs|
  {
    if rs == [] {
      assert rs + [a] == [a];
      assert [a][1..] == [];
    } else {
      var head := if rs[0].date == day then [rs[0]] else [];
      var tail := if a.date == day then [a] else [];
      assert (rs + [a])[0] == rs[0];
      assert (rs + [a])[1..] == rs[1..] + [a];
      DayRecordsAfterPush(rs[1..], a, day);
      calc {
        DayRecords(rs + [a], day);
        head + DayRecords(rs[1..] + [a], day);
        head + (DayRecords(rs[1..], day) + tail);
        (head + DayRecords(rs[1..], day)) + tail;
        DayRecords(rs, day) + tail;
      }
    }
  }
}
